=== FILE: README.md ===
# Floaters and accordion: a Dafny model

This project models the two client-side scripts of a static site as pure
state machines and proves properties of them with Dafny 4.11.

- **Floater lifecycle manager** (`js/floaters.js`). Decorative images
  ("floaters") are spawned by a repeating timer into a background layer. Each
  one drifts along a random keyframe path and removes itself when its
  animation finishes. The state is the `alive` counter, whether the spawn
  timer exists, the set of floater elements in the layer, and the set of
  elements whose animation has not finished yet. Events are timer ticks,
  `start`, `stop`, animation completion, page visibility changes and the
  480 px breakpoint. Every `Math.random()` call is an explicit draw in
  [0, 1). The layer's box and the drift vector `(dx, dy)` are parameters.
  The helpers `rand`, `randInt` and `pick`, the position clamp and the
  keyframe shape are modelled with `real` arithmetic.
- **Accordion controller** (`js/menu.js`). The menu items are a sequence
  of `Entry` records. Each has an `open` marker, an optional toggle button
  (its children, `aria-controls` and `aria-expanded`) and an optional inner
  panel with its id. Wiring and clicks are functions on that sequence, with
  the single-open policy switched on.

Modules: `RandomDraws` (random.dfy), `Keyframes` (keyframes.dfy),
`Floaters` (floaters.dfy), `FloaterLaws` (floater_laws.dfy), `Decimal`
(decimal.dfy), `Menu` (menu.dfy), `MenuLaws` (menu_laws.dfy) and `Optional`
(optional.dfy).

In the floater model, an animation keeps running after `stop` removes its
element. `Element.animate` animations are not cancelled by `remove()`, so
`onfinish` can still fire for such an element. The model therefore lets a
completion arrive for any element whose animation is still running. This
is how the discrepancy under "## Findings" shows up. The rest of the model
(`Floaters.Step`) uses the corrected `onfinish`.

Two consequences follow directly from the handlers (`FloaterLaws.HandlersAreControls`):

- A visible-page event restarts the timer even below the 480 px
  breakpoint.
- The wide-breakpoint event restarts it even in focused mode or on a
  hidden page.

The source does this as written, and the model keeps it.

## Model

| member | source | states |
|---|---|---|
| RandomDraws.Rand | js/floaters.js:24 | for a draw in [0,1) and min <= max, the value lies in [min, max]; it is strictly below max when min < max, and equals min when the range is one point |
| RandomDraws.RandInt | js/floaters.js:25 | for min <= max, the floor of `rand(min, max+1)` is an integer in [min, max] |
| RandomDraws.RandIntCovers | js/floaters.js:25 | every integer k of [min, max] is produced by the draw (k-min)/(max-min+1), so no value of the range is unreachable |
| RandomDraws.PickIndex | js/floaters.js:26 | the index `floor(r * length)` lies in [0, length) for a non-empty array |
| RandomDraws.PickIndexCovers | js/floaters.js:26 | every index of a non-empty array is read for some draw |
| RandomDraws.Pick | js/floaters.js:26 | `pick` yields a value iff the array is non-empty; the value is an element of the array; a one-element pool always yields its element |
| Keyframes.Waypoint | js/floaters.js:54-60 | a waypoint frame is fully opaque, carries offset min(0.85, i/(n+1)), and its translation is within 30 px of the proportional drift on each axis |
| Keyframes.Path | js/floaters.js:53-62 | the keyframe list has n+2 frames: first zero translation with opacity 0, last the full drift with opacity 0, every middle frame opacity 1 with offset min(0.85, i/(n+1)) |
| Keyframes.OffsetInRange | js/floaters.js:55-57 | every waypoint offset lies in (0, 0.85] |
| Keyframes.TimeIncreasing | js/floaters.js:55 | waypoint times i/(n+1) strictly increase with i |
| Keyframes.OffsetsNondecreasing | js/floaters.js:55-57 | capped offsets never decrease along the path, for any waypoint count |
| Keyframes.CapNeverBinds | js/floaters.js:51-57 | for a waypoint count of at most 4 the 0.85 cap never binds: each offset equals i/(n+1) and is at most 0.8 |
| Keyframes.OffsetsIncreasing | js/floaters.js:51-57 | for a waypoint count of at most 4 the waypoint offsets strictly increase |
| Keyframes.BuildPath | js/floaters.js:53-62 | the push loop of the script builds exactly the reference keyframe list `Path` |
| Floaters.SpawnCoordinate | js/floaters.js:39-43 | a coordinate satisfies 24 <= p <= max(extent-24, 24); it is below extent-24 when the layer is wider than 48 px and exactly 24 otherwise |
| Floaters.MakeFloater | js/floaters.js:30-65 | a new floater uses an image of the pool, has size in [24,48], position within the margins, lifetime in [6000,12000], between 4 and 6 frames with the fade-in/fade-out envelope, and uncapped offsets |
| Floaters.Spawn | js/floaters.js:28-45 | at or above the cap of 12 nothing changes; below it exactly one new element enters the layer with its animation running, the counter rises by one and the layer's size by one |
| Floaters.OnTick | js/floaters.js:71 | without a timer a tick changes nothing; a tick never changes whether the timer exists; with one it spawns, respecting the cap check, and the new floater's animation is running |
| Floaters.Start | js/floaters.js:69-72 | afterwards the timer exists; an existing timer leaves the state unchanged; floaters and counter are untouched |
| Floaters.Stop | js/floaters.js:74-80 | afterwards there is no timer, no floater in the layer and the counter is 0, whatever the prior state; running animations are not cancelled |
| Floaters.FinishAsWritten | js/floaters.js:66 | a completion removes its element (a no-op if already removed) and decrements the counter; an animation completes at most once |
| Floaters.Finish | js/floaters.js:66 | the corrected completion agrees with the script for an element still in the layer and changes neither counter nor layer for an element already removed |
| Floaters.OnVisibility | js/floaters.js:89-98 | a hidden page ends with no timer, no floaters and counter 0; a visible page outside focused mode ends with a timer and keeps its floaters; in focused mode nothing changes |
| Floaters.OnBreakpoint | js/floaters.js:101-112 | the narrow breakpoint ends with no timer, no floaters and counter 0; the wide one ends with a timer and keeps its floaters |
| Floaters.Boot | js/floaters.js:82-83 | after loading, the timer exists and the counter/cap invariant holds |
| FloaterLaws.ControlIdempotent | js/floaters.js:69-80 | `start` twice equals `start` once, so there is never a second timer; `stop` twice equals `stop` once |
| FloaterLaws.HandlersAreControls | js/floaters.js:89-112 | a hidden page and the narrow breakpoint act exactly as `stop` (the breakpoint's extra reset is redundant); a visible page outside focused mode and the wide breakpoint act exactly as `start` |
| FloaterLaws.StepKeepsInv | js/floaters.js:28-80 | with the corrected completion, every event keeps the counter equal to the number of floaters in the layer and at most 12 |
| FloaterLaws.RunKeepsInv | js/floaters.js:28-80 | the invariant is kept over any sequence of events |
| FloaterLaws.CapAlwaysHolds | js/floaters.js:13-29 | from page load, after any events, the layer holds at most 12 floaters and the counter matches it (corrected model) |
| FloaterLaws.DivergesOnlyOnStaleFinish | js/floaters.js:66-80 | the script as written and the corrected model differ on an event iff it is a completion for an element `stop` already removed |
| FloaterLaws.StaleFinishBreaksCount | js/floaters.js:66 | such a completion leaves the counter one below the number of floaters in the layer |
| FloaterLaws.TicksAsWritten | js/floaters.js:28-45 | with the timer running and the counter staying under 12, each tick adds one floater, whatever the counter's value |
| FloaterLaws.StaleFinishCounterExample | js/floaters.js:66-80 | spawn, stop, then completion of the removed floater: the layer is empty and the counter is -1 |
| FloaterLaws.HiddenTabNegativeCounter | js/floaters.js:89-92 | two floaters alive, the tab is hidden (the handler stops), then both animations complete: the layer is empty and the counter is -2 |
| FloaterLaws.CapExceededAsWritten | js/floaters.js:13-29 | in the untimed model, continuing the first trace with `start` and 13 ticks puts 13 floaters in the layer, above the cap of 12; this needs completions delayed past the timer |
| Decimal.Show | js/menu.js:18 | the rendering of a number is a non-empty digit string with no leading zero (it starts with '0' only for 0), longer than one digit exactly for numbers from 10 up |
| Decimal.ParseShow | js/menu.js:18 | reading the rendered digits back gives the number |
| Decimal.ShowInjective | js/menu.js:18 | distinct numbers render differently |
| Menu.FirstIndicator | js/menu.js:24 | the position found holds an indicator and no earlier child is one; no position means the button has no indicator |
| Menu.SetIndicatorSrc | js/menu.js:37 | only the first indicator's icon changes, and it changes to the given icon; every other child, that indicator's `aria-hidden` and both ARIA attributes stay; a button without indicator is unchanged |
| Menu.Render | js/menu.js:47-57 | an item's marker takes the given state; when it has a button, `aria-expanded` and the icon follow that state, while `aria-controls`, the panel, the other children and the indicator's `aria-hidden` stay |
| Menu.PanelIdFor | js/menu.js:18 | an existing non-empty id is kept; otherwise the id is `menu-panel-` followed by digits without a leading zero that read back as index+1, so it is exactly the numeral of index+1 |
| Menu.WireEntry | js/menu.js:11-37 | an item without button or panel is untouched; a wired item gets the panel id, `aria-controls` equal to it, `aria-expanded` and icon matching the `open` marker, and a new decorative indicator as the button's first child only when it had none |
| Menu.Wire | js/menu.js:9-37 | items without button or panel are unchanged; every wired item ends with attributes matching its state and the panel id chosen for its position in the full item list; a button without indicator gets a decorative one prepended to its unchanged children, and a button with one keeps every other child |
| Menu.CloseOthers | js/menu.js:43-53 | afterwards an item is open iff it was open and is the clicked one; the clicked item and closed items are untouched; every other formerly open item keeps its panel and `aria-controls`, gets `aria-expanded` "false" and shows the plus icon if it has an indicator, with every other child of its button kept |
| Menu.Toggle | js/menu.js:40-58 | a click flips the item's state and sets its `aria-expanded` and (when it has an indicator) its icon to match the new state; opening under the policy leaves exactly that item open; closing leaves every other item unchanged; items closed by the policy were open and show "false" and the plus icon; on the clicked item and the closed items `aria-controls` and every button child other than the indicator's icon stay; consistent attributes stay consistent; an unwired item's click does nothing |
| MenuLaws.WireEstablishesAgreement | js/menu.js:15-37 | after wiring every wired item's `aria-expanded`, icon and `aria-controls` describe it, and unwired items are unchanged |
| MenuLaws.GeneratedIdsDistinct | js/menu.js:18 | items at different positions without their own id get different generated ids |
| MenuLaws.WireEntryIdempotent | js/menu.js:18-37 | on attributes and children only: wiring an item twice equals wiring it once, the id is kept and no second indicator is created (the script wires once; a second pass would also add a second click listener, which the model does not represent) |
| MenuLaws.WireIdempotent | js/menu.js:11-37 | on attributes and children only: wiring the whole menu twice equals wiring it once |
| MenuLaws.OpenCountExactlyOne | js/menu.js:43-55 | a menu whose only open item is i has open count 1 |
| MenuLaws.ToggleOpenCount | js/menu.js:41-57 | under the policy, an opening click leaves one item open, a closing click lowers the count by one, an unwired click keeps it |
| MenuLaws.ToggleKeepsAtMostOne | js/menu.js:43-55 | "at most one item open" survives every click |
| MenuLaws.ClicksKeepInvariants | js/menu.js:40-58 | after any series of clicks, consistent attributes stay consistent and at most one item stays open if at most one was |
| MenuLaws.WiredMenuStaysConsistent | js/menu.js:11-58 | from a freshly wired menu, after any clicks, every wired item's attributes describe its state |

## Findings

| source | as written | input that shows it | evidently intended | confidence | as-written member | corrected member |
|---|---|---|---|---|---|---|
| js/floaters.js:66 | `onfinish` decrements `alive` even when `stop` (js/floaters.js:74-80) already removed the element and zeroed the counter, so the counter goes negative and no longer counts the floaters in the layer | floaters alive when the tab is hidden: the visibility handler calls `stop`, which zeroes the counter, then their animations complete and push it to -1, -2, ... | the counter counts the floaters in the layer, so a completion for an already removed element changes nothing | medium, not executed: it depends on the browser firing `onfinish` for a removed element's animation | FloaterLaws.HiddenTabNegativeCounter | FloaterLaws.CapAlwaysHolds |

`Floaters.FinishAsWritten` models the handler as written.
`FloaterLaws.HiddenTabNegativeCounter` and
`FloaterLaws.StaleFinishCounterExample` exhibit the negative counter.
`Floaters.Finish` is the corrected handler, and `FloaterLaws.CapAlwaysHolds`
proves the counter and the cap for it.

The model's ticks carry no time, so it also admits a trace with more than
12 floaters (`FloaterLaws.CapExceededAsWritten`). In a browser that trace
needs completions delayed past the timer. Ticks come every 1200 ms
(js/floaters.js:14) and a lifetime is at most 12000 ms (js/floaters.js:16).
So the first of 13 newly spawned floaters completes before the 13th tick,
and at most about 11 are alive at once. The lasting consequence of the
defect is the negative counter, not an exceeded cap.

## Left out

- DOM APIs (`querySelector`, `createElement`, `classList`, attributes, `remove`) are records, sequences and sets.
- `Math.random` is a parameter draw in [0, 1). `Math.cos`/`Math.sin` and the drift length are replaced by the drift vector `(dx, dy)`, so the bound [120, 320] on its length is not stated.
- Floating point: `rand` is computed on exact reals. IEEE rounding of `Math.random() * (max - min) + min` up to `max` is not modelled.
- Translation strings (`translate(...)`), the image `alt`, `className`, `decoding` and `loading` hints and the `px` strings are not modelled.
- `SPAWN_EVERY_MS` (1200) and `DRIFT_PX` (120 to 320) are not constants of the model: ticks are untimed events, and the drift vector is a parameter.
- Timer timing (the 1200 ms period), `getBoundingClientRect` (a `Box` parameter), `matchMedia` (a breakpoint event) and the animation's duration, easing and fill are not modelled as time. The breakpoint's state at page load is not consulted by the script and is not modelled.
- The breakpoint listener is attached with `mq.addEventListener?.(...)`. Where that method is missing, no breakpoint event ever arrives. The model lets the event occur; the laws quantify over all event sequences, so they also cover sequences without it.
- A missing `.bg-floaters` layer makes the script return before doing anything; the model assumes the layer exists.
- `stop` removes every `.bg-floater` in the layer; the model assumes only the manager creates such elements.
- The focused reading view, content fetching and outline generation are not part of the shown scripts and are not part of this model. The `focused` flag enters only as a parameter of the visibility event.
- Menu.Toggle: the indicator of an item closed by the policy is the first indicator inside its toggle button. The script's `openItem.querySelector(".indicator")` could find one elsewhere in the item first.
- Menu items added after page load, and items outside `.menu .menu-item`, are not modelled.

=== FILE: decimal.dfy ===
/** Decimal rendering of a natural number, as a template literal `${n}`
    renders it, with its parser as the inverse. */
module Decimal {

  predicate IsDigit(c: char) {
    '0' <= c <= '9'
  }

  function DigitChar(d: nat): (c: char)
    requires d < 10
    ensures IsDigit(c)
  {
    ('0' as int + d) as char
  }

  function DigitValue(c: char): (d: nat)
    requires IsDigit(c)
    ensures d < 10 && DigitChar(d) == c
  {
    c as int - '0' as int
  }

  /** The shortest decimal numeral of `n`. */
  function Show(n: nat): (s: string)
    ensures |s| >= 1
    ensures forall k :: 0 <= k < |s| ==> IsDigit(s[k])
    ensures n >= 10 <==> |s| > 1
    ensures s[0] == '0' ==> n == 0
  {
    if n < 10 then [DigitChar(n)] else Show(n / 10) + [DigitChar(n % 10)]
  }

  /** The value of a string of decimal digits. */
  function Parse(s: string): nat
    requires forall k :: 0 <= k < |s| ==> IsDigit(s[k])
  {
    if |s| == 0 then 0 else Parse(s[..|s| - 1]) * 10 + DigitValue(s[|s| - 1])
  }

  lemma {:induction false} ParseShow(n: nat)
    ensures Parse(Show(n)) == n
  {
    var s := Show(n);
    if n >= 10 {
      assert s[..|s| - 1] == Show(n / 10);
      ParseShow(n / 10);
    }
  }

  /** Distinct numbers render as distinct numerals. */
  lemma ShowInjective(a: nat, b: nat)
    ensures Show(a) == Show(b) ==> a == b
  {
    ParseShow(a);
    ParseShow(b);
  }
}

=== FILE: floater_laws.dfy ===
/** Properties of the floater manager: the control surface laws, the
    counter/cap invariant of the corrected model, and the trace that breaks
    it in the model of the script as written. */
module FloaterLaws {
  import opened Keyframes
  import opened Floaters

  /** `start` twice is `start` once, so at most one timer ever exists;
      `stop` twice is `stop` once. */
  lemma ControlIdempotent(s: Manager)
    ensures Start(Start(s)) == Start(s)
    ensures Stop(Stop(s)) == Stop(s)
    ensures Stop(Start(s)) == Stop(s)
  {
  }

  /** The environment handlers reduce to the control surface: a hidden page
      and the narrow breakpoint act as `stop` (the extra reset of the
      breakpoint handler is redundant); a visible page outside focused mode
      and the wide breakpoint act as `start`. */
  lemma HandlersAreControls(s: Manager, focused: bool)
    ensures OnVisibility(s, true, focused) == Stop(s)
    ensures OnVisibility(s, false, false) == Start(s)
    ensures OnVisibility(s, false, true) == s
    ensures OnBreakpoint(s, true) == Stop(s)
    ensures OnBreakpoint(s, false) == Start(s)
  {
  }

  /** Every event of the corrected model keeps the counter equal to the
      number of floaters in the layer, and both under the cap. */
  lemma StepKeepsInv(s: Manager, e: Event)
    requires Inv(s) && EventOk(e)
    ensures Inv(Step(s, e))
  {
  }

  lemma {:induction false} RunKeepsInv(s: Manager, es: seq<Event>)
    requires Inv(s) && EventsOk(es)
    ensures Inv(Run(s, es))
    decreases |es|
  {
    if |es| > 0 {
      StepKeepsInv(s, es[0]);
      RunKeepsInv(Step(s, es[0]), es[1..]);
    }
  }

  /** With the corrected `onfinish`, after any sequence of events the layer
      never holds more than 12 floaters and the counter matches it. */
  lemma CapAlwaysHolds(es: seq<Event>)
    requires EventsOk(es)
    ensures |Run(Boot(), es).live| <= MaxFloaters
    ensures Run(Boot(), es).alive == |Run(Boot(), es).live|
  {
    RunKeepsInv(Boot(), es);
  }

  /** The script as written agrees with the corrected model on every event
      except a completion that arrives for an element `stop` already removed. */
  lemma DivergesOnlyOnStaleFinish(s: Manager, e: Event)
    requires EventOk(e)
    ensures StepAsWritten(s, e) != Step(s, e) <==>
      e.AnimationFinish? && e.el in s.running && e.el !in s.live
  {
  }

  /** Such a stale completion leaves the counter one below the number of
      floaters in the layer. */
  lemma StaleFinishBreaksCount(s: Manager, el: nat)
    requires Inv(s) && el in s.running && el !in s.live
    ensures FinishAsWritten(s, el).alive == |FinishAsWritten(s, el).live| - 1
  {
  }

  /** Running events one after the other. */
  lemma {:induction false} RunAsWrittenAppend(s: Manager, a: seq<Event>, b: seq<Event>)
    requires EventsOk(a) && EventsOk(b)
    ensures EventsOk(a + b)
    ensures RunAsWritten(s, a + b) == RunAsWritten(RunAsWritten(s, a), b)
    decreases |a|
  {
    if |a| > 0 {
      assert (a + b)[1..] == a[1..] + b;
      RunAsWrittenAppend(StepAsWritten(s, a[0]), a[1..], b);
    } else {
      assert a + b == b;
    }
  }

  function Ticks(k: nat, box: Box, d: Draws): (es: seq<Event>)
    requires ValidDraws(d)
    ensures |es| == k && EventsOk(es)
    ensures forall i :: 0 <= i < k ==> es[i] == Tick(box, d)
  {
    if k == 0 then [] else [Tick(box, d)] + Ticks(k - 1, box, d)
  }

  /** While the timer runs and the counter stays under the cap, each tick
      adds one floater, whatever the counter says. */
  lemma {:induction false} TicksAsWritten(s: Manager, k: nat, box: Box, d: Draws)
    requires ValidDraws(d) && WellFormed(s) && s.timer && s.alive + k <= MaxFloaters
    ensures RunAsWritten(s, Ticks(k, box, d)).alive == s.alive + k
    ensures |RunAsWritten(s, Ticks(k, box, d)).live| == |s.live| + k
    decreases k
  {
    if k > 0 {
      var es := Ticks(k, box, d);
      assert es[0] == Tick(box, d);
      assert es[1..] == Ticks(k - 1, box, d);
      var s1 := StepAsWritten(s, es[0]);
      assert s1 == Spawn(s, box, d).0;
      TicksAsWritten(s1, k - 1, box, d);
    }
  }

  /** A concrete box and set of draws; any valid ones would do. */
  const SomeBox: Box := Box(800.0, 600.0)
  const SomeDraws: Draws := Draws(0.0, 0.0, 0.0, 0.0, 0.0, 0.0, 100.0, 100.0,
                                  [(0.0, 0.0), (0.0, 0.0), (0.0, 0.0), (0.0, 0.0)])

  /** Spawn one floater, stop, then let its animation complete: the layer is
      empty but the counter reads -1. */
  lemma StaleFinishCounterExample()
    ensures ValidDraws(SomeDraws)
    ensures RunAsWritten(Boot(), [Tick(SomeBox, SomeDraws), StopCall, AnimationFinish(0)])
            == Manager(-1, false, {}, {}, 1)
  {
    assert ValidJitter(SomeDraws.jitter);
    var es := [Tick(SomeBox, SomeDraws), StopCall, AnimationFinish(0)];
    var s1 := StepAsWritten(Boot(), es[0]);
    assert s1 == Manager(1, true, {0}, {0}, 1);
    var s2 := StepAsWritten(s1, es[1]);
    assert s2 == Manager(0, false, {}, {0}, 1);
    var s3 := StepAsWritten(s2, es[2]);
    assert s3 == Manager(-1, false, {}, {}, 1);
    assert RunAsWritten(s3, es[1..][1..][1..]) == s3;
    assert RunAsWritten(s2, es[1..][1..]) == s3;
    assert RunAsWritten(s1, es[1..]) == s3;
  }

  /** The realistic trigger: two floaters are alive when the tab is hidden;
      the handler stops the manager, then both animations complete. The
      layer is empty and the counter reads -2. */
  lemma HiddenTabNegativeCounter()
    ensures ValidDraws(SomeDraws)
    ensures RunAsWritten(Boot(), [Tick(SomeBox, SomeDraws), Tick(SomeBox, SomeDraws),
                                  VisibilityChange(true, false), AnimationFinish(0), AnimationFinish(1)])
            == Manager(-2, false, {}, {}, 2)
  {
    assert ValidJitter(SomeDraws.jitter);
    var es := [Tick(SomeBox, SomeDraws), Tick(SomeBox, SomeDraws),
               VisibilityChange(true, false), AnimationFinish(0), AnimationFinish(1)];
    var s1 := StepAsWritten(Boot(), es[0]);
    assert s1 == Manager(1, true, {0}, {0}, 1);
    var s2 := StepAsWritten(s1, es[1]);
    assert s2 == Manager(2, true, {0, 1}, {0, 1}, 2);
    var s3 := StepAsWritten(s2, es[2]);
    assert s3 == Manager(0, false, {}, {0, 1}, 2);
    var s4 := StepAsWritten(s3, es[3]);
    assert s4 == Manager(-1, false, {}, {1}, 2);
    var s5 := StepAsWritten(s4, es[4]);
    assert s5 == Manager(-2, false, {}, {}, 2);
    assert RunAsWritten(s5, es[1..][1..][1..][1..][1..]) == s5;
    assert RunAsWritten(s4, es[1..][1..][1..][1..]) == s5;
    assert RunAsWritten(s3, es[1..][1..][1..]) == s5;
    assert RunAsWritten(s2, es[1..][1..]) == s5;
    assert RunAsWritten(s1, es[1..]) == s5;
  }

  /** Continue the first trace with `start` and 13 ticks: the cap check lets
      a 13th floater into the layer. Ticks carry no time here; in a browser
      the first of those floaters would complete before the 13th tick. */
  lemma CapExceededAsWritten()
    ensures ValidDraws(SomeDraws)
    ensures var es := [Tick(SomeBox, SomeDraws), StopCall, AnimationFinish(0), StartCall]
                      + Ticks(13, SomeBox, SomeDraws);
            EventsOk(es) && |RunAsWritten(Boot(), es).live| == 13 > MaxFloaters
  {
    StaleFinishCounterExample();
    var prefix := [Tick(SomeBox, SomeDraws), StopCall, AnimationFinish(0)];
    var restart := prefix + [StartCall];
    RunAsWrittenAppend(Boot(), prefix, [StartCall]);
    var s4 := RunAsWritten(Boot(), restart);
    assert RunAsWritten(Boot(), prefix) == Manager(-1, false, {}, {}, 1);
    assert RunAsWritten(Manager(-1, false, {}, {}, 1), [StartCall]) == Manager(-1, true, {}, {}, 1);
    assert s4 == Manager(-1, true, {}, {}, 1);
    TicksAsWritten(s4, 13, SomeBox, SomeDraws);
    RunAsWrittenAppend(Boot(), restart, Ticks(13, SomeBox, SomeDraws));
    assert restart == [Tick(SomeBox, SomeDraws), StopCall, AnimationFinish(0), StartCall];
  }
}

=== FILE: floaters.dfy ===
/** The floater lifecycle manager of js/floaters.js as a pure state machine.
    The page layer, its timer and the element animations become the record
    `Manager`; timer ticks, `start`/`stop` calls, animation completions and
    environment signals become `Event`s. Each random draw, the layer's box and
    the drift vector of a new floater are event parameters. */
module Floaters {
  import opened Optional
  import opened RandomDraws
  import opened Keyframes

  // ------------------ configuration ------------------

  const Images: seq<string> := ["images/n_black.png"]
  /** Cap on floaters on screen at once. */
  const MaxFloaters: int := 12
  const SizeMin: int := 24
  const SizeMax: int := 48
  const LifetimeMin: int := 6000
  const LifetimeMax: int := 12000
  const WaypointsMin: int := 2
  const WaypointsMax: int := 4
  /** Distance kept from the layer's edges when placing a floater. */
  const EdgeMargin: real := 24.0

  // ------------------ data ------------------

  /** The layer's bounding box as `getBoundingClientRect` reports it. */
  datatype Box = Box(width: real, height: real)

  /** The draws one spawn consumes, and the drift vector `(dx, dy)`
      obtained from the drift length and angle draws. */
  datatype Draws = Draws(image: real, size: real, left: real, top: real,
                         waypoints: real, duration: real,
                         dx: real, dy: real, jitter: seq<(real, real)>)

  predicate ValidDraws(d: Draws) {
    && IsDraw(d.image) && IsDraw(d.size) && IsDraw(d.left) && IsDraw(d.top)
    && IsDraw(d.waypoints) && IsDraw(d.duration)
    && WaypointsMax <= |d.jitter| && ValidJitter(d.jitter)
  }

  /** One floater element as spawned: image, width, position, path, lifetime. */
  datatype Floater = Floater(image: string, size: int, left: real, top: real,
                             frames: seq<Keyframe>, duration: int)

  /** Manager state: the `alive` counter, whether the spawn timer exists,
      the floater elements present in the layer, the elements whose
      animation has not fired `onfinish` yet, and the next fresh element id. */
  datatype Manager = Manager(alive: int, timer: bool, live: set<nat>, running: set<nat>, next: nat)

  /** The environment's events. */
  datatype Event =
    | Tick(box: Box, draws: Draws)
    | StartCall
    | StopCall
    | AnimationFinish(el: nat)
    | VisibilityChange(hidden: bool, focused: bool)
    | BreakpointChange(narrow: bool)

  predicate EventOk(e: Event) {
    e.Tick? ==> ValidDraws(e.draws)
  }

  predicate EventsOk(es: seq<Event>) {
    forall k :: 0 <= k < |es| ==> EventOk(es[k])
  }

  /** Every element id in use was handed out before `next`, and every
      element in the layer still has its animation running. */
  predicate WellFormed(s: Manager) {
    && s.live <= s.running
    && forall x :: x in s.running ==> x < s.next
  }

  /** The intended invariant: the counter counts the layer's floaters and
      the cap bounds them. */
  predicate Inv(s: Manager) {
    && WellFormed(s)
    && s.alive == |s.live|
    && s.alive <= MaxFloaters
  }

  // ------------------ spawning ------------------

  function MaxReal(a: real, b: real): real {
    if a >= b then a else b
  }

  /** A coordinate `rand(24, max(extent - 24, 24))` inside the layer. */
  function SpawnCoordinate(extent: real, r: real): (p: real)
    requires IsDraw(r)
    ensures EdgeMargin <= p <= MaxReal(extent - EdgeMargin, EdgeMargin)
    ensures extent - EdgeMargin > EdgeMargin ==> p < extent - EdgeMargin
    ensures extent - EdgeMargin <= EdgeMargin ==> p == EdgeMargin
  {
    Rand(EdgeMargin, MaxReal(extent - EdgeMargin, EdgeMargin), r)
  }

  /** What a spawned floater satisfies for a layer box and drift vector. */
  predicate FloaterShape(f: Floater, box: Box, dx: real, dy: real) {
    && f.image in Images
    && SizeMin <= f.size <= SizeMax
    && EdgeMargin <= f.left <= MaxReal(box.width - EdgeMargin, EdgeMargin)
    && EdgeMargin <= f.top <= MaxReal(box.height - EdgeMargin, EdgeMargin)
    && LifetimeMin <= f.duration <= LifetimeMax
    && WaypointsMin + 2 <= |f.frames| <= WaypointsMax + 2
    && f.frames[0] == StartFrame
    && f.frames[|f.frames| - 1] == EndFrame(dx, dy)
    && forall k :: 1 <= k < |f.frames| - 1 ==>
         f.frames[k].opacity == 1.0 && f.frames[k].offset == Some(WaypointTime(k, |f.frames| - 2))
  }

  /** The element `spawnFloater` builds. */
  function MakeFloater(box: Box, d: Draws): (f: Floater)
    requires ValidDraws(d)
    ensures FloaterShape(f, box, d.dx, d.dy)
  {
    var n := RandInt(WaypointsMin, WaypointsMax, d.waypoints);
    var frames := Path(n, d.dx, d.dy, d.jitter);
    assert forall k :: 1 <= k <= n ==> WaypointOffset(k, n) == WaypointTime(k, n) by {
      forall k | 1 <= k <= n {
        CapNeverBinds(k, n);
      }
    }
    Floater(Pick(Images, d.image).value,
            RandInt(SizeMin, SizeMax, d.size),
            SpawnCoordinate(box.width, d.left),
            SpawnCoordinate(box.height, d.top),
            frames,
            RandInt(LifetimeMin, LifetimeMax, d.duration))
  }

  /** `spawnFloater`: nothing at or above the cap; otherwise one new element
      in the layer with its animation running, and the counter one higher. */
  function Spawn(s: Manager, box: Box, d: Draws): (res: (Manager, Option<Floater>))
    requires ValidDraws(d)
    ensures s.alive >= MaxFloaters ==> res == (s, None)
    ensures s.alive < MaxFloaters ==>
      && res.0.alive == s.alive + 1
      && res.0.timer == s.timer
      && res.0.live == s.live + {s.next}
      && res.0.running == s.running + {s.next}
      && res.1.Some? && FloaterShape(res.1.value, box, d.dx, d.dy)
    ensures WellFormed(s) ==> WellFormed(res.0)
    ensures WellFormed(s) && s.alive < MaxFloaters ==> |res.0.live| == |s.live| + 1
  {
    if s.alive >= MaxFloaters then (s, None)
    else
      var s' := Manager(s.alive + 1, s.timer, s.live + {s.next}, s.running + {s.next}, s.next + 1);
      (s', Some(MakeFloater(box, d)))
  }

  // ------------------ lifecycle ------------------

  /** Before the script runs: no counter, no timer, no floaters. */
  const Init: Manager := Manager(0, false, {}, {}, 0)

  /** A timer tick spawns; without a timer there are no ticks. */
  function OnTick(s: Manager, box: Box, d: Draws): (r: Manager)
    requires ValidDraws(d)
    ensures !s.timer ==> r == s
    ensures s.timer && s.alive < MaxFloaters ==> r.alive == s.alive + 1 && r.live == s.live + {s.next}
    ensures s.alive >= MaxFloaters ==> r == s
    ensures r.timer == s.timer
    ensures s.timer && s.alive < MaxFloaters ==> r.running == s.running + {s.next}
  {
    if s.timer then Spawn(s, box, d).0 else s
  }

  /** `start`: create the timer unless one exists; floaters are untouched. */
  function Start(s: Manager): (r: Manager)
    ensures r.timer
    ensures s.timer ==> r == s
    ensures r.alive == s.alive && r.live == s.live && r.running == s.running && r.next == s.next
  {
    if s.timer then s else s.(timer := true)
  }

  /** `stop`: clear the timer, remove every floater of the layer, zero the
      counter. The animations of removed elements are not cancelled. */
  function Stop(s: Manager): (r: Manager)
    ensures !r.timer && r.live == {} && r.alive == 0
    ensures r.running == s.running && r.next == s.next
  {
    s.(timer := false, live := {}, alive := 0)
  }

  /** `onfinish` as written: remove the element (a no-op when `stop` already
      removed it) and decrement the counter regardless. An animation fires
      `onfinish` once, so a finished element cannot finish again. */
  function FinishAsWritten(s: Manager, el: nat): (r: Manager)
    ensures el !in s.running ==> r == s
    ensures el in s.running ==>
      r.alive == s.alive - 1 && r.live == s.live - {el} && r.running == s.running - {el}
    ensures r.timer == s.timer && r.next == s.next
  {
    if el !in s.running then s
    else s.(alive := s.alive - 1, live := s.live - {el}, running := s.running - {el})
  }

  /** `onfinish` corrected: decrement only when the element is still in the
      layer, so a completion that arrives after `stop` changes no count. */
  function Finish(s: Manager, el: nat): (r: Manager)
    ensures el in s.live && el in s.running ==> r == FinishAsWritten(s, el)
    ensures el !in s.live ==> r.alive == s.alive && r.live == s.live
    ensures r.running == s.running - {el} && r.timer == s.timer && r.next == s.next
  {
    if el !in s.running then s
    else if el in s.live then s.(alive := s.alive - 1, live := s.live - {el}, running := s.running - {el})
    else s.(running := s.running - {el})
  }

  /** The `visibilitychange` handler: a hidden page stops; a visible page
      starts unless the page is in focused mode. */
  function OnVisibility(s: Manager, hidden: bool, focused: bool): (r: Manager)
    ensures hidden ==> !r.timer && r.live == {} && r.alive == 0
    ensures !hidden && !focused ==> r.timer
    ensures !hidden ==> r.live == s.live && r.alive == s.alive
    ensures !hidden && focused ==> r == s
  {
    if hidden then Stop(s)
    else if !focused then Start(s)
    else s
  }

  /** The breakpoint handler: below 480 px it stops, then zeroes the counter
      and empties the layer once more; above it starts. */
  function OnBreakpoint(s: Manager, narrow: bool): (r: Manager)
    ensures narrow ==> !r.timer && r.live == {} && r.alive == 0 && r.running == s.running
    ensures !narrow ==> r.timer && r.live == s.live && r.alive == s.alive
  {
    if narrow then
      var stopped := Stop(s);
      var zeroed := stopped.(alive := 0);
      zeroed.(live := {})
    else Start(s)
  }

  /** Every event but an animation completion, shared by both models. */
  function Control(s: Manager, e: Event): (r: Manager)
    requires EventOk(e) && !e.AnimationFinish?
  {
    match e
    case Tick(box, d) => OnTick(s, box, d)
    case StartCall => Start(s)
    case StopCall => Stop(s)
    case VisibilityChange(hidden, focused) => OnVisibility(s, hidden, focused)
    case BreakpointChange(narrow) => OnBreakpoint(s, narrow)
  }

  /** One event, with `onfinish` as the script writes it. */
  function StepAsWritten(s: Manager, e: Event): Manager
    requires EventOk(e)
  {
    if e.AnimationFinish? then FinishAsWritten(s, e.el) else Control(s, e)
  }

  /** One event, with the corrected `onfinish`. */
  function Step(s: Manager, e: Event): Manager
    requires EventOk(e)
  {
    if e.AnimationFinish? then Finish(s, e.el) else Control(s, e)
  }

  function RunAsWritten(s: Manager, es: seq<Event>): Manager
    requires EventsOk(es)
    decreases |es|
  {
    if |es| == 0 then s else RunAsWritten(StepAsWritten(s, es[0]), es[1..])
  }

  function Run(s: Manager, es: seq<Event>): Manager
    requires EventsOk(es)
    decreases |es|
  {
    if |es| == 0 then s else Run(Step(s, es[0]), es[1..])
  }

  /** The state once the script has loaded: `start()` runs by default. */
  function Boot(): (s: Manager)
    ensures Inv(s) && s.timer
  {
    Start(Init)
  }
}

=== FILE: keyframes.dfy ===
/** The motion path of one floater (js/floaters.js, the keyframe list passed
    to `el.animate`). The drift vector `(dx, dy)` and the jitter draws are
    parameters; translations and offsets are reals. */
module Keyframes {
  import opened Optional
  import opened RandomDraws

  /** No waypoint offset is placed later than this fraction of the lifetime. */
  const OffsetCap: real := 0.85
  /** Each waypoint is displaced by up to this many pixels on each axis. */
  const JitterPx: real := 30.0

  /** One keyframe: an optional explicit offset, a translation and an opacity. */
  datatype Keyframe = Keyframe(offset: Option<real>, tx: real, ty: real, opacity: real)

  /** The opening frame: no translation, fully transparent. */
  const StartFrame: Keyframe := Keyframe(None, 0.0, 0.0, 0.0)

  /** The closing frame: the whole drift, fully transparent. */
  function EndFrame(dx: real, dy: real): Keyframe {
    Keyframe(None, dx, dy, 0.0)
  }

  function Min(a: real, b: real): real {
    if a <= b then a else b
  }

  /** Normalised time `i / (n + 1)` of waypoint `i` out of `n`. */
  function WaypointTime(i: nat, n: nat): real {
    i as real / (n + 1) as real
  }

  /** The explicit offset of waypoint `i`: its time, capped at 0.85. */
  function WaypointOffset(i: nat, n: nat): real {
    Min(OffsetCap, WaypointTime(i, n))
  }

  /** A pair of draws per waypoint, one for each axis. */
  predicate ValidJitter(jitter: seq<(real, real)>) {
    forall k :: 0 <= k < |jitter| ==> IsDraw(jitter[k].0) && IsDraw(jitter[k].1)
  }

  /** Waypoint `i`: proportional drift plus jitter, fully opaque. */
  function Waypoint(i: nat, n: nat, dx: real, dy: real, j: (real, real)): (f: Keyframe)
    requires IsDraw(j.0) && IsDraw(j.1)
    ensures f.opacity == 1.0 && f.offset == Some(WaypointOffset(i, n))
    ensures -JitterPx <= f.tx - dx * WaypointTime(i, n) <= JitterPx
    ensures -JitterPx <= f.ty - dy * WaypointTime(i, n) <= JitterPx
  {
    var t := WaypointTime(i, n);
    Keyframe(Some(WaypointOffset(i, n)),
             dx * t + Rand(-JitterPx, JitterPx, j.0),
             dy * t + Rand(-JitterPx, JitterPx, j.1),
             1.0)
  }

  /** The whole keyframe list for `n` waypoints, as a reference definition. */
  function Path(n: nat, dx: real, dy: real, jitter: seq<(real, real)>): (frames: seq<Keyframe>)
    requires n <= |jitter| && ValidJitter(jitter)
    ensures |frames| == n + 2
    ensures frames[0] == StartFrame && frames[n + 1] == EndFrame(dx, dy)
    ensures forall k :: 1 <= k <= n ==> frames[k].opacity == 1.0
    ensures forall k :: 1 <= k <= n ==> frames[k].offset == Some(WaypointOffset(k, n))
  {
    [StartFrame]
    + seq(n, k requires 0 <= k < n => Waypoint(k + 1, n, dx, dy, jitter[k]))
    + [EndFrame(dx, dy)]
  }

  /** Every waypoint offset lies in (0, 0.85]. */
  lemma OffsetInRange(i: nat, n: nat)
    requires 1 <= i <= n
    ensures 0.0 < WaypointOffset(i, n) <= OffsetCap
  {
    assert WaypointTime(i, n) > 0.0;
  }

  /** Waypoint times grow strictly with the waypoint index. */
  lemma TimeIncreasing(i: nat, j: nat, n: nat)
    requires i < j
    ensures WaypointTime(i, n) < WaypointTime(j, n)
  {
    var d := (n + 1) as real;
    assert WaypointTime(j, n) - WaypointTime(i, n) == (j - i) as real / d;
  }

  /** Offsets never decrease along the path, as the animation API demands. */
  lemma OffsetsNondecreasing(i: nat, j: nat, n: nat)
    requires i <= j
    ensures WaypointOffset(i, n) <= WaypointOffset(j, n)
  {
    if i < j {
      TimeIncreasing(i, j, n);
    }
  }

  /** For at most four waypoints the 0.85 cap never binds: the offset is
      the plain time `i / (n + 1)`, so offsets strictly increase. */
  lemma CapNeverBinds(i: nat, n: nat)
    requires 1 <= i <= n <= 4
    ensures WaypointOffset(i, n) == WaypointTime(i, n) <= 0.8
  {
    var t := WaypointTime(i, n);
    var d := (n + 1) as real;
    assert t * d == i as real;
    assert (0.8 - t) * d >= 0.0;
    assert 0.8 - t >= 0.0 by {
      SignOfProduct(0.8 - t, d);
    }
  }

  /** A product with a positive factor has the sign of the other factor. */
  lemma SignOfProduct(a: real, b: real)
    requires b > 0.0 && a * b >= 0.0
    ensures a >= 0.0
  {
    assert a == (a * b) / b;
  }

  /** For at most four waypoints the offsets strictly increase. */
  lemma OffsetsIncreasing(i: nat, j: nat, n: nat)
    requires 1 <= i < j <= n <= 4
    ensures WaypointOffset(i, n) < WaypointOffset(j, n)
  {
    CapNeverBinds(i, n);
    CapNeverBinds(j, n);
    TimeIncreasing(i, j, n);
  }

  /** The loop of `spawnFloater`: push the start frame, then one frame per
      waypoint `i = 1 .. n`, then the end frame. */
  method BuildPath(n: nat, dx: real, dy: real, jitter: seq<(real, real)>) returns (frames: seq<Keyframe>)
    requires n <= |jitter| && ValidJitter(jitter)
    ensures frames == Path(n, dx, dy, jitter)
  {
    frames := [StartFrame];
    var i := 1;
    while i <= n
      invariant 1 <= i <= n + 1
      invariant |frames| == i
      invariant frames[0] == StartFrame
      invariant forall k :: 1 <= k < i ==> frames[k] == Waypoint(k, n, dx, dy, jitter[k - 1])
    {
      frames := frames + [Waypoint(i, n, dx, dy, jitter[i - 1])];
      i := i + 1;
    }
    frames := frames + [EndFrame(dx, dy)];
    var p := Path(n, dx, dy, jitter);
    assert forall k :: 0 <= k < |p| ==> frames[k] == p[k];
  }
}

=== FILE: menu.dfy ===
/** The accordion of js/menu.js. The `.menu .menu-item` elements become a
    sequence of entries; wiring and clicks become pure functions on it. */
module Menu {
  import opened Optional
  import Decimal

  const PlusSrc: string := "images/nc_plus.png"
  const MinusSrc: string := "images/nc_minus.png"
  /** The single-open policy switch of the script. */
  const OneOpen: bool := true
  const PanelIdPrefix: string := "menu-panel-"

  /** A child of a toggle button: an `.indicator` image, or anything else. */
  datatype Node = Indicator(src: string, ariaHidden: bool) | Label(text: string)

  /** The `.menu-toggle` button with its two ARIA attributes. */
  datatype Button = Button(children: seq<Node>, ariaControls: Option<string>, ariaExpanded: Option<string>)

  /** A menu item: its `open` marker, its toggle button if any, and the id
      of its `.panel-inner` element if there is one (`""` when it has no id). */
  datatype Entry = Entry(open: bool, button: Option<Button>, panel: Option<string>)

  /** Only items with both a button and an inner panel are wired. */
  predicate Wired(e: Entry) {
    e.button.Some? && e.panel.Some?
  }

  function ExpandedValue(open: bool): string {
    if open then "true" else "false"
  }

  function IconFor(open: bool): string {
    if open then MinusSrc else PlusSrc
  }

  /** The position of the first indicator among a button's children. */
  function FirstIndicator(cs: seq<Node>): (k: Option<nat>)
    ensures k.Some? ==> k.value < |cs| && cs[k.value].Indicator?
    ensures k.Some? ==> forall j :: 0 <= j < k.value ==> !cs[j].Indicator?
    ensures k.None? ==> forall j :: 0 <= j < |cs| ==> !cs[j].Indicator?
  {
    if |cs| == 0 then None
    else if cs[0].Indicator? then Some(0)
    else
      match FirstIndicator(cs[1..])
      case None => None
      case Some(k) => Some(k + 1)
  }

  /** The src of the indicator `button.querySelector(".indicator")` finds. */
  function IndicatorSrc(b: Button): Option<string> {
    match FirstIndicator(b.children)
    case None => None
    case Some(k) => Some(b.children[k].src)
  }

  /** The first indicator is determined by where the indicators are. */
  lemma {:induction false} FirstIndicatorByShape(a: seq<Node>, b: seq<Node>)
    requires |a| == |b|
    requires forall j :: 0 <= j < |a| ==> a[j].Indicator? == b[j].Indicator?
    ensures FirstIndicator(a) == FirstIndicator(b)
  {
    if |a| > 0 && !a[0].Indicator? {
      FirstIndicatorByShape(a[1..], b[1..]);
    }
  }

  /** Between two versions of a button's children, at most the first
      indicator's icon differs: every other child is kept, and that
      indicator stays an indicator with the same `aria-hidden`. */
  predicate OnlyIconChanged(b: Button, b': Button) {
    && |b'.children| == |b.children|
    && forall j :: 0 <= j < |b.children| ==>
         if Some(j) == FirstIndicator(b.children) then
           b'.children[j].Indicator? && b.children[j].Indicator?
           && b'.children[j].ariaHidden == b.children[j].ariaHidden
         else b'.children[j] == b.children[j]
  }

  /** Assign the src of the button's indicator, if it has one. */
  function SetIndicatorSrc(b: Button, src: string): (r: Button)
    ensures |r.children| == |b.children|
    ensures r.ariaControls == b.ariaControls && r.ariaExpanded == b.ariaExpanded
    ensures FirstIndicator(r.children) == FirstIndicator(b.children)
    ensures IndicatorSrc(b).Some? ==> IndicatorSrc(r) == Some(src)
    ensures IndicatorSrc(b).None? ==> r == b
    ensures OnlyIconChanged(b, r)
    ensures forall j :: 0 <= j < |b.children| && Some(j) != FirstIndicator(b.children) ==>
              r.children[j] == b.children[j]
  {
    match FirstIndicator(b.children)
    case None => b
    case Some(k) =>
      var cs := b.children[k := b.children[k].(src := src)];
      FirstIndicatorByShape(cs, b.children);
      b.(children := cs)
  }

  /** Bring an item to a state: its marker, and when it has a button, the
      button's `aria-expanded` and the indicator's icon. */
  function Render(e: Entry, open: bool): (r: Entry)
    ensures r.open == open && r.panel == e.panel && r.button.Some? == e.button.Some?
    ensures e.button.Some? ==>
      && r.button.value.ariaExpanded == Some(ExpandedValue(open))
      && r.button.value.ariaControls == e.button.value.ariaControls
      && (IndicatorSrc(e.button.value).Some? <==> IndicatorSrc(r.button.value).Some?)
      && (IndicatorSrc(e.button.value).Some? ==> IndicatorSrc(r.button.value) == Some(IconFor(open)))
      && OnlyIconChanged(e.button.value, r.button.value)
  {
    match e.button
    case None => e.(open := open)
    case Some(b) =>
      var b' := b.(ariaExpanded := Some(ExpandedValue(open)));
      FirstIndicatorByShape(b'.children, b.children);
      e.(open := open, button := Some(SetIndicatorSrc(b', IconFor(open))))
  }

  /** A wired entry's attributes describe its state: `aria-expanded` and the
      icon follow the `open` marker, and `aria-controls` names the panel. */
  predicate Agree(e: Entry) {
    Wired(e) ==>
      && e.button.value.ariaExpanded == Some(ExpandedValue(e.open))
      && IndicatorSrc(e.button.value) == Some(IconFor(e.open))
      && e.button.value.ariaControls == e.panel
  }

  // ------------------ wiring ------------------

  /** The panel id: the existing one, else `menu-panel-<index + 1>`. */
  function PanelIdFor(existing: string, index: nat): (id: string)
    ensures id != ""
    ensures existing != "" ==> id == existing
    ensures existing == "" ==>
      && |id| > |PanelIdPrefix| && id[..|PanelIdPrefix|] == PanelIdPrefix
      && id[|PanelIdPrefix|] != '0'
      && (forall k :: |PanelIdPrefix| <= k < |id| ==> Decimal.IsDigit(id[k]))
      && Decimal.Parse(id[|PanelIdPrefix|..]) == index + 1
  {
    if existing != "" then existing
    else
      var digits := Decimal.Show(index + 1);
      Decimal.ParseShow(index + 1);
      assert (PanelIdPrefix + digits)[|PanelIdPrefix|..] == digits;
      PanelIdPrefix + digits
  }

  /** The indicator the script creates: decorative, hidden from assistive
      technology, with no icon yet. */
  const NewIndicator: Node := Indicator("", true)

  /** The per-item setup of the script, for the item at `index`. */
  function WireEntry(e: Entry, index: nat): (r: Entry)
    ensures !Wired(e) ==> r == e
    ensures Wired(r) == Wired(e) && r.open == e.open
    ensures Wired(e) ==> Agree(r) && r.panel == Some(PanelIdFor(e.panel.value, index))
    ensures Wired(e) && IndicatorSrc(e.button.value).None? ==>
      r.button.value.children == [Indicator(IconFor(e.open), true)] + e.button.value.children
    ensures Wired(e) && IndicatorSrc(e.button.value).Some? ==>
      && |r.button.value.children| == |e.button.value.children|
      && forall j :: 0 <= j < |e.button.value.children| && Some(j) != FirstIndicator(e.button.value.children) ==>
           r.button.value.children[j] == e.button.value.children[j]
  {
    if !Wired(e) then e
    else
      var id := PanelIdFor(e.panel.value, index);
      var b := e.button.value;
      var cs := if FirstIndicator(b.children).None? then [NewIndicator] + b.children else b.children;
      var b' := Button(cs, Some(id), Some(ExpandedValue(e.open)));
      Entry(e.open, Some(SetIndicatorSrc(b', IconFor(e.open))), Some(id))
  }

  /** Wire every item, each with its position in the item list. */
  function Wire(items: seq<Entry>): (r: seq<Entry>)
    ensures |r| == |items|
    ensures forall i :: 0 <= i < |items| && !Wired(items[i]) ==> r[i] == items[i]
    ensures forall i :: 0 <= i < |items| && Wired(items[i]) ==>
              Wired(r[i]) && Agree(r[i]) && r[i].panel == Some(PanelIdFor(items[i].panel.value, i))
    ensures forall i :: 0 <= i < |items| && Wired(items[i]) && IndicatorSrc(items[i].button.value).None? ==>
              Wired(r[i])
              && r[i].button.value.children == [Indicator(IconFor(items[i].open), true)] + items[i].button.value.children
    ensures forall i :: 0 <= i < |items| && Wired(items[i]) && IndicatorSrc(items[i].button.value).Some? ==>
              && Wired(r[i])
              && |r[i].button.value.children| == |items[i].button.value.children|
              && forall j :: 0 <= j < |items[i].button.value.children|
                             && Some(j) != FirstIndicator(items[i].button.value.children) ==>
                   r[i].button.value.children[j] == items[i].button.value.children[j]
  {
    seq(|items|, i requires 0 <= i < |items| => WireEntry(items[i], i))
  }

  // ------------------ clicks ------------------

  /** Close every open item other than `i`, whether or not it is wired. */
  function CloseOthers(es: seq<Entry>, i: nat): (r: seq<Entry>)
    ensures |r| == |es|
    ensures forall j :: 0 <= j < |es| ==> (r[j].open <==> es[j].open && j == i)
    ensures forall j :: 0 <= j < |es| && (j == i || !es[j].open) ==> r[j] == es[j]
    ensures forall j :: 0 <= j < |es| && j != i && es[j].open ==>
      && r[j].panel == es[j].panel
      && r[j].button.Some? == es[j].button.Some?
      && (es[j].button.Some? ==>
            && r[j].button.value.ariaControls == es[j].button.value.ariaControls
            && r[j].button.value.ariaExpanded == Some("false")
            && (IndicatorSrc(es[j].button.value).Some? ==> IndicatorSrc(r[j].button.value) == Some(PlusSrc))
            && OnlyIconChanged(es[j].button.value, r[j].button.value))
  {
    seq(|es|, j requires 0 <= j < |es| => if j != i && es[j].open then Render(es[j], false) else es[j])
  }

  /** A click on the toggle button of item `i`. Items that were not wired
      have no click handler. */
  function Toggle(es: seq<Entry>, i: nat, oneOpen: bool): (r: seq<Entry>)
    requires i < |es|
    ensures |r| == |es|
    ensures !Wired(es[i]) ==> r == es
    ensures forall j :: 0 <= j < |es| ==> Wired(r[j]) == Wired(es[j]) && r[j].panel == es[j].panel
    ensures Wired(es[i]) ==>
      && Wired(r[i])
      && r[i].open == !es[i].open
      && r[i].button.value.ariaExpanded == Some(ExpandedValue(r[i].open))
      && (IndicatorSrc(es[i].button.value).Some? ==> IndicatorSrc(r[i].button.value) == Some(IconFor(r[i].open)))
      && r[i].button.value.ariaControls == es[i].button.value.ariaControls
      && OnlyIconChanged(es[i].button.value, r[i].button.value)
    ensures forall j :: 0 <= j < |es| && Agree(es[j]) ==> Agree(r[j])
    // an opening click under the single-open policy
    ensures Wired(es[i]) && !es[i].open && oneOpen ==>
      forall j :: 0 <= j < |es| ==> (r[j].open <==> j == i)
    // a closing click, or any click without the policy, touches no other item
    ensures Wired(es[i]) && (es[i].open || !oneOpen) ==>
      forall j :: 0 <= j < |es| && j != i ==> r[j] == es[j]
    // items closed by the policy show the closed state
    ensures forall j :: 0 <= j < |es| && j != i && r[j] != es[j] ==>
      && es[j].open && !r[j].open
      && (r[j].button.Some? ==>
            && es[j].button.Some?
            && r[j].button.value.ariaExpanded == Some("false")
            && r[j].button.value.ariaControls == es[j].button.value.ariaControls
            && (IndicatorSrc(es[j].button.value).Some? ==> IndicatorSrc(r[j].button.value) == Some(PlusSrc))
            && OnlyIconChanged(es[j].button.value, r[j].button.value))
  {
    var e := es[i];
    if !Wired(e) then es
    else
      var willOpen := !e.open;
      var rest := if oneOpen && willOpen then CloseOthers(es, i) else es;
      rest[i := Render(e, willOpen)]
  }

  /** How many items carry the `open` marker. */
  function OpenCount(es: seq<Entry>): nat {
    if |es| == 0 then 0 else (if es[0].open then 1 else 0) + OpenCount(es[1..])
  }
}

=== FILE: menu_laws.dfy ===
/** Properties of the accordion: what wiring establishes, and what clicks
    under the single-open policy preserve. */
module MenuLaws {
  import opened Optional
  import opened Menu

  /** After wiring, every wired item's attributes describe its state, and
      wiring leaves the unwired items alone. */
  lemma WireEstablishesAgreement(items: seq<Entry>)
    ensures forall i :: 0 <= i < |items| ==> Agree(Wire(items)[i])
    ensures forall i :: 0 <= i < |items| && !Wired(items[i]) ==> Wire(items)[i] == items[i]
  {
  }

  /** Two items without their own panel id get different generated ids. */
  lemma GeneratedIdsDistinct(i: nat, j: nat)
    requires i != j
    ensures PanelIdFor("", i) != PanelIdFor("", j)
  {
  }

  /** Assigning the icon a button already shows changes nothing. */
  lemma SetSameSrc(b: Button, src: string)
    requires IndicatorSrc(b) == Some(src)
    ensures SetIndicatorSrc(b, src) == b
  {
  }

  /** Wiring an item twice is wiring it once: the id is kept and no second
      indicator is created. */
  lemma WireEntryIdempotent(e: Entry, index: nat)
    ensures WireEntry(WireEntry(e, index), index) == WireEntry(e, index)
  {
    var w := WireEntry(e, index);
    if Wired(e) {
      var b := w.button.value;
      assert FirstIndicator(b.children).Some?;
      var b' := Button(b.children, Some(w.panel.value), Some(ExpandedValue(w.open)));
      assert b' == b;
      SetSameSrc(b, IconFor(w.open));
    }
  }

  lemma WireIdempotent(items: seq<Entry>)
    ensures Wire(Wire(items)) == Wire(items)
  {
    forall i | 0 <= i < |items|
      ensures Wire(Wire(items))[i] == Wire(items)[i]
    {
      WireEntryIdempotent(items[i], i);
    }
  }

  /** Replacing one item changes the open count by the change of its marker. */
  lemma {:induction false} OpenCountUpdate(es: seq<Entry>, i: nat, e: Entry)
    requires i < |es|
    ensures OpenCount(es[i := e]) ==
      OpenCount(es) - (if es[i].open then 1 else 0) + (if e.open then 1 else 0)
    decreases |es|
  {
    if i > 0 {
      assert es[i := e][1..] == es[1..][i - 1 := e];
      OpenCountUpdate(es[1..], i - 1, e);
    } else {
      assert es[i := e][1..] == es[1..];
    }
  }

  /** No open item counts zero. */
  lemma {:induction false} OpenCountNone(es: seq<Entry>)
    requires forall j :: 0 <= j < |es| ==> !es[j].open
    ensures OpenCount(es) == 0
    decreases |es|
  {
    if |es| > 0 {
      OpenCountNone(es[1..]);
    }
  }

  /** Exactly the item `i` open counts one. */
  lemma OpenCountExactlyOne(es: seq<Entry>, i: nat)
    requires i < |es|
    requires forall j :: 0 <= j < |es| ==> (es[j].open <==> j == i)
    ensures OpenCount(es) == 1
  {
    var closed := es[i := es[i].(open := false)];
    OpenCountNone(closed);
    OpenCountUpdate(closed, i, es[i]);
    assert closed[i := es[i]] == es;
  }

  /** Under the single-open policy a click either leaves one item open
      (opening), closes one item (closing), or changes nothing (unwired). */
  lemma ToggleOpenCount(es: seq<Entry>, i: nat)
    requires i < |es|
    ensures var r := Toggle(es, i, OneOpen);
      && (Wired(es[i]) && !es[i].open ==> OpenCount(r) == 1)
      && (Wired(es[i]) && es[i].open ==> OpenCount(r) == OpenCount(es) - 1)
      && (!Wired(es[i]) ==> OpenCount(r) == OpenCount(es))
  {
    var r := Toggle(es, i, OneOpen);
    if Wired(es[i]) {
      if !es[i].open {
        OpenCountExactlyOne(r, i);
      } else {
        assert r == es[i := r[i]];
        OpenCountUpdate(es, i, r[i]);
      }
    }
  }

  /** "At most one item open" survives every click. */
  lemma ToggleKeepsAtMostOne(es: seq<Entry>, i: nat)
    requires i < |es| && OpenCount(es) <= 1
    ensures OpenCount(Toggle(es, i, OneOpen)) <= 1
  {
    ToggleOpenCount(es, i);
  }

  predicate ValidClicks(es: seq<Entry>, clicks: seq<nat>) {
    forall k :: 0 <= k < |clicks| ==> clicks[k] < |es|
  }

  /** A series of clicks on the given item positions. */
  function Clicks(es: seq<Entry>, clicks: seq<nat>): (r: seq<Entry>)
    requires ValidClicks(es, clicks)
    ensures |r| == |es|
    decreases |clicks|
  {
    if |clicks| == 0 then es else Clicks(Toggle(es, clicks[0], OneOpen), clicks[1..])
  }

  /** From a freshly wired menu, after any clicks, every wired item's
      `aria-expanded`, icon and `aria-controls` still describe it, and if at
      most one item started open, at most one is open. */
  lemma {:induction false} ClicksKeepInvariants(es: seq<Entry>, clicks: seq<nat>)
    requires ValidClicks(es, clicks)
    requires forall j :: 0 <= j < |es| ==> Agree(es[j])
    ensures forall j :: 0 <= j < |es| ==> Agree(Clicks(es, clicks)[j])
    ensures OpenCount(es) <= 1 ==> OpenCount(Clicks(es, clicks)) <= 1
    decreases |clicks|
  {
    if |clicks| > 0 {
      var next := Toggle(es, clicks[0], OneOpen);
      if OpenCount(es) <= 1 {
        ToggleKeepsAtMostOne(es, clicks[0]);
      }
      ClicksKeepInvariants(next, clicks[1..]);
    }
  }

  lemma WiredMenuStaysConsistent(items: seq<Entry>, clicks: seq<nat>)
    requires ValidClicks(items, clicks)
    ensures ValidClicks(Wire(items), clicks)
    ensures forall j :: 0 <= j < |items| ==> Agree(Clicks(Wire(items), clicks)[j])
  {
    WireEstablishesAgreement(items);
    ClicksKeepInvariants(Wire(items), clicks);
  }
}

=== FILE: optional.dfy ===
/** A value that may be absent: a missing attribute, an empty query result,
    or `undefined` read out of an empty array. */
module Optional {

  datatype Option<+T> = None | Some(value: T)
}

=== FILE: random.dfy ===
/** The random helpers of the floater script (`rand`, `randInt`, `pick`).
    Every `Math.random()` call becomes an explicit draw `r` in [0, 1), so
    each helper is a pure function of its draw. */
module RandomDraws {
  import opened Optional

  /** A value `Math.random()` may return. */
  predicate IsDraw(r: real) {
    0.0 <= r < 1.0
  }

  /** A draw times a width: stays between zero and that width. */
  function Scale(r: real, w: real): (y: real)
    requires IsDraw(r)
    ensures w >= 0.0 ==> 0.0 <= y <= w
    ensures w > 0.0 ==> y < w
  {
    if w > 0.0 then
      assert (1.0 - r) * w > 0.0;
      r * w
    else
      r * w
  }

  /** A quotient of a non-negative numerator and a larger denominator is a draw. */
  lemma QuotientIsDraw(a: real, b: real)
    requires 0.0 <= a < b
    ensures IsDraw(a / b)
    ensures a / b * b == a
  {
    var q := a / b;
    assert q * b == a;
    assert (1.0 - q) * b == b - a;
  }

  /** `rand(min, max)`: the draw scaled onto the half-open interval from `min`
      towards `max`. */
  function Rand(min: real, max: real, r: real): (x: real)
    requires IsDraw(r)
    ensures min <= max ==> min <= x <= max
    ensures min < max ==> x < max
    ensures min == max ==> x == min
  {
    Scale(r, max - min) + min
  }

  /** `randInt(min, max)`: the floor of `rand(min, max + 1)`, an integer of
      the closed range when the range is not empty. */
  function RandInt(min: int, max: int, r: real): (k: int)
    requires IsDraw(r)
    ensures min <= max ==> min <= k <= max
  {
    Rand(min as real, (max + 1) as real, r).Floor
  }

  /** Every integer of a non-empty range is produced by some draw. */
  lemma RandIntCovers(min: int, max: int, k: int)
    requires min <= k <= max
    ensures IsDraw((k - min) as real / (max - min + 1) as real)
    ensures RandInt(min, max, (k - min) as real / (max - min + 1) as real) == k
  {
    var m := (max - min + 1) as real;
    var r := (k - min) as real / m;
    QuotientIsDraw((k - min) as real, m);
    assert Rand(min as real, (max + 1) as real, r) == k as real;
  }

  /** The index `pick` reads: `Math.floor(Math.random() * arr.length)`. */
  function PickIndex(len: nat, r: real): (i: int)
    requires IsDraw(r)
    ensures len > 0 ==> 0 <= i < len
    ensures len == 0 ==> i == 0
  {
    Scale(r, len as real).Floor
  }

  /** Every index of a non-empty array is read for some draw. */
  lemma PickIndexCovers(len: nat, i: nat)
    requires i < len
    ensures IsDraw(i as real / len as real)
    ensures PickIndex(len, i as real / len as real) == i
  {
    QuotientIsDraw(i as real, len as real);
  }

  /** `pick(arr)`: an element of `arr`; reading index 0 of an empty array
      yields `undefined`, modelled as `None`. */
  function Pick<T>(arr: seq<T>, r: real): (x: Option<T>)
    requires IsDraw(r)
    ensures x.Some? <==> |arr| > 0
    ensures x.Some? ==> x.value in arr
    ensures |arr| == 1 ==> x == Some(arr[0])
  {
    if |arr| == 0 then None else Some(arr[PickIndex(|arr|, r)])
  }
}
